=== FILE: README.md ===
# Live caption relay: a Dafny model

This project models the decision logic of a small Go service (`main.go`) that
streams microphone audio to a cloud speech-to-text service and republishes the
transcripts on a message queue. It has three parts, and each is modelled as a
pure function over an abstract event sequence:

- **Control loop** (`Control`, `control.dfy`). `main` consumes control messages
  from the inbound queue. It keeps the boolean pair `isStart`/`isStop` and one
  cancellable context. A `"start"` flag launches `livecaption` under the current
  context. A `"stop"` flag cancels that context and mints a fresh one. Any other
  message is only logged. Every message is acknowledged afterwards. `Step`
  handles one message and `Run` folds it over a message sequence. Contexts are
  numbered: the first is 0, and each stop moves to the next number.
- **Send side** (`Streaming`, `streaming.dfy`). `livecaption` sends one
  configuration frame (LINEAR16, 16000 Hz, `en-US`). A goroutine then pipes
  captured audio in reads of at most 1024 bytes. It reacts to the context being
  cancelled, to end of data and to read errors. `SendLoop` maps the events that
  goroutine observes to the frames it sends. `SendAudio` is the same loop
  written imperatively.
- **Receive side** (`Recognition`, `recognition.dfy`). The loop receives
  recognition responses and publishes `{transcript, confidence}` for every
  alternative of every result; a result with no alternatives publishes nothing.
  It stops at end of stream, at a receive error or at a response carrying an
  error status. It logs a warning about the 60-second limit for status codes 3
  and 11. `Receive` is the functional definition, and
  `ReceiveLoop`/`PublishResponse` are the imperative loops.
- **Session** (`Session`, `session.dfy`). `Livecaption` puts these together. It
  covers setup failures (client creation, stream open), failure to send the
  configuration frame, and otherwise the two loops on one stream.

Things outside the program become inputs. These are the speech service's
answers, the audio pipe's reads, whether the context was cancelled, and whether
each setup call succeeded.

## Model

| member | source | states |
|---|---|---|
| Control.Step | main.go:184-207 | handling one message emits a log entry first and an acknowledgement last, with at most one effect between them, which is a spawn or a cancel, so there is exactly one acknowledgement; it keeps the two flags complementary; the state changes exactly when that middle effect is emitted (`StepEffects` says which one) |
| Control.StepEffects | main.go:185-195 | one message emits exactly one ack; it spawns exactly when it moves the flags from not-started to started, and cancels exactly when it moves them from not-stopped to stopped; the context number advances exactly on a cancel |
| Control.RunKeepsFlagsComplementary | main.go:173-174 | over any message sequence `isStart` and `isStop` are never both true and never both false; the context number and the running flag agree with the number of spawns and cancels emitted |
| Control.RunningIffOneLiveSession | main.go:173-195 | from the initial state (not started, stopped), the loop is running exactly when spawns outnumber cancels by one, and stopped exactly when they are equal |
| Control.RunAcknowledgesEveryMessage | main.go:207 | a run over n messages acknowledges exactly n times, whichever branches the messages take |
| Control.StartWhenStopped | main.go:185-189 | a `"start"` when not started sets started, clears stopped, keeps the context, and spawns exactly one session with that context |
| Control.StartWhenStarted | main.go:196-197 | a `"start"` when already started changes no state and spawns nothing; it only logs "already started" and acknowledges |
| Control.StopWhenRunning | main.go:190-195 | a `"stop"` when not stopped sets stopped, clears started, cancels the current context and moves to a fresh one |
| Control.StopWhenStopped | main.go:198-199 | a `"stop"` when already stopped, including as the very first message, changes nothing and cancels nothing |
| Control.IgnoredMessage | main.go:184-205 | a message without a `flag` key, or with any value other than the strings `"start"`/`"stop"`, leaves the state and the context unchanged; it is logged as an incorrect key or an incorrect value |
| Control.RepeatedStartsSpawnOnce | main.go:185-189 | any non-empty run of start messages ends started and emits one spawn if it began stopped and none if it began started; it never cancels |
| Control.RepeatedStopsCancelOnce | main.go:190-199 | any non-empty run of stop messages ends stopped and emits one cancel if it began running and none if it began stopped; it never spawns |
| Control.StepAlternates | main.go:185-195 | one message extends a trace that alternates spawn/cancel exactly when the rest of the trace alternates from the post-state |
| Control.RunAlternates | main.go:179-208 | from any consistent state, spawn and cancel effects strictly alternate; each cancel is of the context the preceding spawn used |
| Control.AtMostOneLiveSession | main.go:171-208 | from the initial state the trace alternates, beginning with a spawn of context 0; in every prefix, spawns are at least the cancels and at most one more, so at most one session is live |
| Streaming.SendLoopFrames | main.go:76-109 | the send goroutine sends no configuration frame and only non-empty audio frames of at most 1024 bytes; CloseSend comes at most once and only last, and it is sent exactly when the loop ends closed |
| Streaming.SendLoopAudio | main.go:85-101 | the audio frames sent are exactly the non-empty chunks (`buf[:n]`) of the reads consumed, in order; this includes the bytes of a read that also returns EOF |
| Streaming.SendLoopEnd | main.go:80-105 | the loop calls CloseSend exactly when it stops at an end-of-data read; it exits without closing exactly when it first observes cancellation; it is still running only if neither occurred |
| Streaming.SendLoopAppend | main.go:103-106 | while no read hits EOF and no cancellation is seen, including after non-EOF read errors, the loop keeps going: its frames are those of the earlier events followed by those of the later ones |
| Streaming.NothingSentAfterReturn | main.go:80-101 | once the loop has returned (EOF or cancellation), no later event sends anything |
| Streaming.SendAudio | main.go:76-109 | the imperative loop (select on cancellation, read, send when `n > 0`, close on EOF, continue on other errors) produces exactly the functional send trace |
| Recognition.ResponsePayloadAt | main.go:129-139 | the payload at position (alternatives of the earlier results + j) equals alternative j of result i, for every alternative; there is one payload per alternative, in result-then-alternative order |
| Recognition.ResponsePayloads | main.go:129-139 | an error-free response publishes exactly as many payloads as it has alternatives over all its results |
| Recognition.ReceiveAppend | main.go:112-141 | while no terminating outcome occurs, the loop publishes the payloads of each response in turn and keeps receiving |
| Recognition.NothingPublishedAfterStop | main.go:113-128 | after an end of stream, a receive error or an error response, no later response publishes anything |
| Recognition.StopsAtFirstTerminator | main.go:113-128 | the loop ends at the first terminating outcome (end of stream, receive error, error response), and that outcome alone fixes the termination reason; with none it is still receiving |
| Recognition.PublishedBeforeTerminator | main.go:113-139 | everything the loop publishes comes from the responses before the first terminating outcome; the terminating outcome and everything after it add nothing |
| Recognition.LimitWarningIffCode | main.go:121-127 | the 60-second-limit warning is issued exactly when the loop stops at an error response whose status code is 3 or 11 |
| Recognition.PublishedInOrder | main.go:112-141 | every alternative of every response before the stop is published unchanged, after all payloads of earlier responses and at its result-then-alternative position; the responses before it, that response and the ones after contribute exactly their own payload counts to the total, so nothing extra is published |
| Recognition.PublishResponse | main.go:129-139 | the two nested range loops publish exactly the payloads of the response's alternatives, in order |
| Recognition.ReceiveLoop | main.go:112-141 | the imperative receive loop with its breaks produces exactly the functional receive trace, both the payloads and the termination reason |
| Session.Livecaption | main.go:39-142 | a setup failure sends nothing; otherwise the first frame is the configuration (LINEAR16, 16000, "en-US") and no later frame is one; the session ends with a configuration failure exactly when setup succeeded but sending the configuration did not, and then only the configuration frame was sent; audio is sent and `cmd.Start` called only when the configuration was accepted; then the audio frames are exactly the consumed chunks; nothing is published unless the session got that far, and when it did, the published payloads and the termination reason are exactly those of the receive loop over the responses; likewise the frames after the configuration are exactly those of the send loop over the audio events, so they contain only non-empty audio of at most 1024 bytes and at most one CloseSend, which comes last |

## Left out

- RabbitMQ client creation, iteration, publishing, acknowledgement and shutdown are external I/O. Publishing and acknowledging appear only as effects: a payload in `published` and an `Ack`. `published` records attempted publishes: a failed one (main.go:136-138) is only logged and still appears.
- The Google Speech client and the `StreamingRecognize` call are a foreign library. They appear only as the flags `clientCreated`/`streamOpened`/`configAccepted` and the sequence of receive outcomes.
- The `gst-launch` subprocess, its stdout pipe, and the deferred Kill/Wait (main.go:67-74) are OS process plumbing. The read events stand in for the pipe, and `captureLaunched` records that `cmd.Start` was called; its error is ignored (main.go:70), and the case where Start fails and leaves `cmd.Process` nil for the deferred Kill (main.go:72) is not modelled.
- Concurrency is not modelled. The send and receive loops run concurrently in the program, and sessions race with the control loop on stop/start; here each loop is a separate sequential trace. Which cancellation event a session's send loop sees is an input, not tied to the control loop's `Cancel` effect.
- A failed audio `stream.Send` (main.go:91-93) and a failed `CloseSend` (main.go:97-100) are only logged, and control flow is the same. Frames are therefore recorded as attempted sends.
- Log text and environment-variable reads (main.go:67, 146-150, 180-181) are left out. Which log message each control branch emits is kept as a `Note`.
- Confidence is a float32, kept as its 32-bit pattern. It is passed through unchanged and never compared or bounded, because the program never checks it.
- Traces are finite. When the input events run out before a loop stops, the model reports the loop as still running (`Sending`, `Receiving`) and does not model blocking.

=== FILE: control.dfy ===
/**
 The start/stop control loop of `main`: every message consumed from the inbound
 queue carries (or lacks) a `flag` value, which moves a two-boolean state machine
 between stopped and running. A start transition launches a transcription session
 under the current cancellation context; a stop transition cancels that context
 and mints a fresh one. Every message is acknowledged afterwards.

 Contexts are modelled by a generation number: the program starts with context 0,
 and each stop cancels the current context and replaces it by the next number.
 */
module Control {

  import opened Wrappers
  import Seqs

  /** A decoded JSON value of an inbound message. */
  datatype Value = Str(text: string) | Number(n: int) | Boolean(b: bool) | Null | Composite

  /** An inbound control message: its decoded key/value data. */
  datatype Message = Message(data: map<string, Value>)

  /** What the loop writes to its log for a message (the text itself is not modelled). */
  datatype Note = Started | Stopped | AlreadyStarted | AlreadyStopped | IncorrectValue | IncorrectKey

  /** The observable effects of handling one message, in program order. */
  datatype Effect =
    | Log(note: Note)
    | Spawn(context: nat)   // `go livecaption(ctx, ...)` with context number `context`
    | Cancel(context: nat)  // `cancel()` of context number `context`, followed by a fresh context
    | Ack                   // `msg.Success()`

  /** The loop's state: the two flags and the number of the live context. */
  datatype State = State(isStart: bool, isStop: bool, context: nat)

  datatype Outcome = Outcome(state: State, effects: seq<Effect>)

  const StartFlag: Value := Str("start")
  const StopFlag: Value := Str("stop")

  /** Not started, stopped, first context. */
  const Initial: State := State(false, true, 0)

  /** Exactly one of the two flags holds. */
  predicate Complementary(s: State) {
    s.isStart != s.isStop
  }

  predicate IsLifecycle(e: Effect) {
    e.Spawn? || e.Cancel?
  }

  function FlagOf(m: Message): Option<Value> {
    if "flag" in m.data then Some(m.data["flag"]) else None
  }

  /** Number of acknowledgements in an effect trace. */
  function Acks(es: seq<Effect>): nat {
    if |es| == 0 then 0 else (if es[0] == Ack then 1 else 0) + Acks(es[1..])
  }

  function Spawns(es: seq<Effect>): nat {
    if |es| == 0 then 0 else (if es[0].Spawn? then 1 else 0) + Spawns(es[1..])
  }

  function Cancels(es: seq<Effect>): nat {
    if |es| == 0 then 0 else (if es[0].Cancel? then 1 else 0) + Cancels(es[1..])
  }

  /** Handling of one message (main.go:184-207). */
  function Step(s: State, m: Message): (r: Outcome)
    ensures 2 <= |r.effects| <= 3 && r.effects[0].Log? && r.effects[|r.effects| - 1] == Ack
    ensures Complementary(s) ==> Complementary(r.state)
    ensures |r.effects| == 3 ==> IsLifecycle(r.effects[1])
    ensures r.state == s <==> |r.effects| == 2
  {
    match FlagOf(m)
    case None =>
      Outcome(s, [Log(IncorrectKey), Ack])
    case Some(v) =>
      if v == StartFlag && !s.isStart then
        Outcome(State(true, false, s.context), [Log(Started), Spawn(s.context), Ack])
      else if v == StopFlag && !s.isStop then
        Outcome(State(false, true, s.context + 1), [Log(Stopped), Cancel(s.context), Ack])
      else if v == StartFlag && s.isStart then
        Outcome(s, [Log(AlreadyStarted), Ack])
      else if v == StopFlag && s.isStop then
        Outcome(s, [Log(AlreadyStopped), Ack])
      else
        Outcome(s, [Log(IncorrectValue), Ack])
  }

  /** The loop `for msg := range iter` over a finite sequence of messages. */
  function Run(s: State, msgs: seq<Message>): (r: Outcome)
    decreases |msgs|
  {
    if |msgs| == 0 then Outcome(s, [])
    else
      var first := Step(s, msgs[0]);
      var rest := Run(first.state, msgs[1..]);
      Outcome(rest.state, first.effects + rest.effects)
  }

  /**
   Spawn and Cancel effects alternate, ignoring all other effects: when no session
   is running the next one is a Spawn of the live context `g`; when one is running
   it is a Cancel of that same context, after which context `g + 1` is live.
   */
  predicate Alternating(es: seq<Effect>, running: bool, g: nat)
    decreases |es|
  {
    if |es| == 0 then true
    else match es[0]
      case Spawn(c) => !running && c == g && Alternating(es[1..], true, g)
      case Cancel(c) => running && c == g && Alternating(es[1..], false, g + 1)
      case _ => Alternating(es[1..], running, g)
  }

  lemma {:induction false} CountsAppend(a: seq<Effect>, b: seq<Effect>)
    ensures Acks(a + b) == Acks(a) + Acks(b)
    ensures Spawns(a + b) == Spawns(a) + Spawns(b)
    ensures Cancels(a + b) == Cancels(a) + Cancels(b)
    decreases |a|
  {
    if |a| == 0 {
      Seqs.EmptyConcat(a, b);
    } else {
      Seqs.ConcatHeadTail(a, b);
      CountsAppend(a[1..], b);
    }
  }

  lemma CountsOfThree(a: Effect, b: Effect, c: Effect)
    ensures var es := [a, b, c];
      && Acks(es) == Acks([a]) + Acks([b]) + Acks([c])
      && Spawns(es) == Spawns([a]) + Spawns([b]) + Spawns([c])
      && Cancels(es) == Cancels([a]) + Cancels([b]) + Cancels([c])
  {
    CountsAppend([a], [b, c]);
    CountsAppend([b], [c]);
    assert [a, b, c] == [a] + [b, c];
    assert [b, c] == [b] + [c];
  }

  /**
   One message is acknowledged exactly once; it spawns a session exactly when it
   moves the flags to started, cancels exactly when it moves them to stopped, and
   advances the context exactly when it cancels.
   */
  lemma StepEffects(s: State, m: Message)
    ensures var r := Step(s, m);
      && Acks(r.effects) == 1
      && Spawns(r.effects) == (if !s.isStart && r.state.isStart then 1 else 0)
      && Cancels(r.effects) == (if !s.isStop && r.state.isStop then 1 else 0)
      && r.state.context == s.context + Cancels(r.effects)
  {
    var r := Step(s, m);
    if |r.effects| == 3 {
      CountsOfThree(r.effects[0], r.effects[1], r.effects[2]);
      assert r.effects == [r.effects[0], r.effects[1], r.effects[2]];
    } else {
      CountsAppend([r.effects[0]], [Ack]);
      assert r.effects == [r.effects[0]] + [Ack];
    }
  }

  /** Every message is acknowledged exactly once, whichever branch it takes. */
  lemma {:induction false} RunAcknowledgesEveryMessage(s: State, msgs: seq<Message>)
    ensures Acks(Run(s, msgs).effects) == |msgs|
    decreases |msgs|
  {
    if |msgs| > 0 {
      var first := Step(s, msgs[0]);
      RunAcknowledgesEveryMessage(first.state, msgs[1..]);
      StepEffects(s, msgs[0]);
      CountsAppend(first.effects, Run(first.state, msgs[1..]).effects);
    }
  }

  /**
   Across any message sequence the two flags stay complementary, and the flags and
   the context number agree with the spawns and cancels emitted so far: a session
   is running exactly when one more spawn than cancel has been emitted, and each
   cancel has advanced the context once.
   */
  lemma {:induction false} RunKeepsFlagsComplementary(s: State, msgs: seq<Message>)
    requires Complementary(s)
    ensures var r := Run(s, msgs);
      && Complementary(r.state)
      && r.state.context == s.context + Cancels(r.effects)
      && (if r.state.isStart then 1 else 0) + Cancels(r.effects) == (if s.isStart then 1 else 0) + Spawns(r.effects)
    decreases |msgs|
  {
    if |msgs| > 0 {
      var first := Step(s, msgs[0]);
      RunKeepsFlagsComplementary(first.state, msgs[1..]);
      StepEffects(s, msgs[0]);
      CountsAppend(first.effects, Run(first.state, msgs[1..]).effects);
    }
  }

  /** From the program's initial state: running iff exactly one session has not been cancelled. */
  lemma RunningIffOneLiveSession(msgs: seq<Message>)
    ensures var r := Run(Initial, msgs);
      && Complementary(r.state)
      && (r.state.isStart <==> Spawns(r.effects) == Cancels(r.effects) + 1)
      && (r.state.isStop <==> Spawns(r.effects) == Cancels(r.effects))
      && r.state.context == Cancels(r.effects)
  {
    RunKeepsFlagsComplementary(Initial, msgs);
  }

  /** A "start" message when stopped: running, same context, exactly one spawn of it. */
  lemma StartWhenStopped(s: State, m: Message)
    requires Complementary(s) && !s.isStart
    requires FlagOf(m) == Some(StartFlag)
    ensures Step(s, m).state == State(true, false, s.context)
    ensures Step(s, m).effects == [Log(Started), Spawn(s.context), Ack]
  {
  }

  /** A "start" message when already started changes nothing and spawns nothing. */
  lemma StartWhenStarted(s: State, m: Message)
    requires Complementary(s) && s.isStart
    requires FlagOf(m) == Some(StartFlag)
    ensures Step(s, m).state == s
    ensures Step(s, m).effects == [Log(AlreadyStarted), Ack]
  {
  }

  /** A "stop" message when running cancels the current context and moves to a fresh one. */
  lemma StopWhenRunning(s: State, m: Message)
    requires Complementary(s) && !s.isStop
    requires FlagOf(m) == Some(StopFlag)
    ensures Step(s, m).state == State(false, true, s.context + 1)
    ensures Step(s, m).effects == [Log(Stopped), Cancel(s.context), Ack]
  {
  }

  /** A "stop" message when already stopped (the very first message included) changes nothing and cancels nothing. */
  lemma StopWhenStopped(s: State, m: Message)
    requires Complementary(s) && s.isStop
    requires FlagOf(m) == Some(StopFlag)
    ensures Step(s, m).state == s
    ensures Step(s, m).effects == [Log(AlreadyStopped), Ack]
    ensures s == Initial ==> Run(Initial, [m]) == Outcome(Initial, [Log(AlreadyStopped), Ack])
  {
  }

  /** A message without a `flag` key, or with any other value, leaves state and context alone. */
  lemma IgnoredMessage(s: State, m: Message)
    requires FlagOf(m) != Some(StartFlag) && FlagOf(m) != Some(StopFlag)
    ensures Step(s, m).state == s
    ensures Step(s, m).effects == [Log(if "flag" in m.data then IncorrectValue else IncorrectKey), Ack]
  {
  }

  /** Any run of start messages spawns at most one session and cancels none. */
  lemma {:induction false} RepeatedStartsSpawnOnce(s: State, msgs: seq<Message>)
    requires Complementary(s) && |msgs| > 0
    requires forall i :: 0 <= i < |msgs| ==> FlagOf(msgs[i]) == Some(StartFlag)
    ensures Run(s, msgs).state == State(true, false, s.context)
    ensures Spawns(Run(s, msgs).effects) == (if s.isStart then 0 else 1)
    ensures Cancels(Run(s, msgs).effects) == 0
    decreases |msgs|
  {
    var first := Step(s, msgs[0]);
    var rest := Run(first.state, msgs[1..]);
    CountsAppend(first.effects, rest.effects);
    StepEffects(s, msgs[0]);
    if |msgs| > 1 {
      var tail := msgs[1..];
      forall i | 0 <= i < |tail|
        ensures FlagOf(tail[i]) == Some(StartFlag)
      {
        assert tail[i] == msgs[i + 1];
      }
      RepeatedStartsSpawnOnce(first.state, tail);
    }
  }

  /** Any run of stop messages cancels at most one context and spawns nothing. */
  lemma {:induction false} RepeatedStopsCancelOnce(s: State, msgs: seq<Message>)
    requires Complementary(s) && |msgs| > 0
    requires forall i :: 0 <= i < |msgs| ==> FlagOf(msgs[i]) == Some(StopFlag)
    ensures Run(s, msgs).state == State(false, true, if s.isStop then s.context else s.context + 1)
    ensures Cancels(Run(s, msgs).effects) == (if s.isStop then 0 else 1)
    ensures Spawns(Run(s, msgs).effects) == 0
    decreases |msgs|
  {
    var first := Step(s, msgs[0]);
    var rest := Run(first.state, msgs[1..]);
    CountsAppend(first.effects, rest.effects);
    StepEffects(s, msgs[0]);
    if |msgs| > 1 {
      var tail := msgs[1..];
      forall i | 0 <= i < |tail|
        ensures FlagOf(tail[i]) == Some(StopFlag)
      {
        assert tail[i] == msgs[i + 1];
      }
      RepeatedStopsCancelOnce(first.state, tail);
    }
  }

  lemma AlternatingSkip(e: Effect, es: seq<Effect>, running: bool, g: nat)
    requires !IsLifecycle(e)
    ensures Alternating([e] + es, running, g) <==> Alternating(es, running, g)
  {
    assert ([e] + es)[1..] == es;
  }

  lemma AlternatingAfterIgnored(note: Note, es: seq<Effect>, running: bool, g: nat)
    ensures Alternating([Log(note), Ack] + es, running, g) <==> Alternating(es, running, g)
  {
    assert [Log(note), Ack] + es == [Log(note)] + ([Ack] + es);
    AlternatingSkip(Log(note), [Ack] + es, running, g);
    AlternatingSkip(Ack, es, running, g);
  }

  lemma AlternatingAfterSpawn(g: nat, es: seq<Effect>)
    ensures Alternating([Log(Started), Spawn(g), Ack] + es, false, g) <==> Alternating(es, true, g)
  {
    var tail := [Spawn(g)] + ([Ack] + es);
    assert [Log(Started), Spawn(g), Ack] + es == [Log(Started)] + tail;
    assert tail[1..] == [Ack] + es;
    AlternatingSkip(Log(Started), tail, false, g);
    AlternatingSkip(Ack, es, true, g);
  }

  lemma AlternatingAfterCancel(g: nat, es: seq<Effect>)
    ensures Alternating([Log(Stopped), Cancel(g), Ack] + es, true, g) <==> Alternating(es, false, g + 1)
  {
    var tail := [Cancel(g)] + ([Ack] + es);
    assert [Log(Stopped), Cancel(g), Ack] + es == [Log(Stopped)] + tail;
    assert tail[1..] == [Ack] + es;
    AlternatingSkip(Log(Stopped), tail, true, g);
    AlternatingSkip(Ack, es, false, g + 1);
  }

  /** One message extends an alternating trace exactly when the rest alternates from the new state. */
  lemma StepAlternates(s: State, m: Message, es: seq<Effect>)
    requires Complementary(s)
    ensures var r := Step(s, m);
      Alternating(r.effects + es, s.isStart, s.context) <==> Alternating(es, r.state.isStart, r.state.context)
  {
    if FlagOf(m) == Some(StartFlag) && !s.isStart {
      StartWhenStopped(s, m);
      AlternatingAfterSpawn(s.context, es);
    } else if FlagOf(m) == Some(StopFlag) && !s.isStop {
      StopWhenRunning(s, m);
      AlternatingAfterCancel(s.context, es);
    } else if FlagOf(m) == Some(StartFlag) {
      StartWhenStarted(s, m);
      AlternatingAfterIgnored(AlreadyStarted, es, s.isStart, s.context);
    } else if FlagOf(m) == Some(StopFlag) {
      StopWhenStopped(s, m);
      AlternatingAfterIgnored(AlreadyStopped, es, s.isStart, s.context);
    } else {
      IgnoredMessage(s, m);
      AlternatingAfterIgnored(Step(s, m).effects[0].note, es, s.isStart, s.context);
    }
  }

  lemma {:induction false} RunAlternates(s: State, msgs: seq<Message>)
    requires Complementary(s)
    ensures Alternating(Run(s, msgs).effects, s.isStart, s.context)
    decreases |msgs|
  {
    if |msgs| > 0 {
      var first := Step(s, msgs[0]);
      RunAlternates(first.state, msgs[1..]);
      StepAlternates(s, msgs[0], Run(first.state, msgs[1..]).effects);
    }
  }

  lemma {:induction false} AlternatingPrefix(es: seq<Effect>, running: bool, g: nat, k: nat)
    requires Alternating(es, running, g) && k <= |es|
    ensures Alternating(es[..k], running, g)
    decreases |es|
  {
    if k > 0 {
      assert es[..k][1..] == es[1..][..k - 1];
      match es[0]
      case Spawn(c) => AlternatingPrefix(es[1..], true, g, k - 1);
      case Cancel(c) => AlternatingPrefix(es[1..], false, g + 1, k - 1);
      case _ => AlternatingPrefix(es[1..], running, g, k - 1);
    }
  }

  lemma {:induction false} AlternatingBalance(es: seq<Effect>, running: bool, g: nat)
    requires Alternating(es, running, g)
    ensures var live := (if running then 1 else 0) + Spawns(es) - Cancels(es);
      0 <= live <= 1
    decreases |es|
  {
    if |es| > 0 {
      match es[0]
      case Spawn(c) => AlternatingBalance(es[1..], true, g);
      case Cancel(c) => AlternatingBalance(es[1..], false, g + 1);
      case _ => AlternatingBalance(es[1..], running, g);
    }
  }

  /**
   From the initial state, spawn and cancel effects strictly alternate beginning
   with a spawn of context 0, each cancel hitting the context of the session spawned
   just before it; so at every point of the trace at most one session is live.
   */
  lemma AtMostOneLiveSession(msgs: seq<Message>)
    ensures Alternating(Run(Initial, msgs).effects, false, 0)
    ensures var es := Run(Initial, msgs).effects;
      forall k :: 0 <= k <= |es| ==> Cancels(es[..k]) <= Spawns(es[..k]) <= Cancels(es[..k]) + 1
  {
    var es := Run(Initial, msgs).effects;
    RunAlternates(Initial, msgs);
    forall k | 0 <= k <= |es|
      ensures Cancels(es[..k]) <= Spawns(es[..k]) <= Cancels(es[..k]) + 1
    {
      AlternatingPrefix(es, false, 0, k);
      AlternatingBalance(es[..k], false, 0);
    }
  }
}

=== FILE: recognition.dfy ===
/**
 The response side of the streaming recognition call made by `livecaption`: the
 loop that receives recognition responses and publishes one payload per
 alternative of every result to the outbound queue, until end of stream, a
 receive error or a response that carries an error status.
 */
module Recognition {

  import opened Wrappers
  import Seqs

  /** A float32 confidence score, kept as its bit pattern: the program passes it on and never inspects it. */
  datatype Confidence = Confidence(bits: bv32)

  datatype Alternative = Alternative(transcript: string, confidence: Confidence)

  datatype RecognitionResult = RecognitionResult(alternatives: seq<Alternative>)

  /** An error status carried by a response. */
  datatype Status = Status(code: int, message: string)

  datatype Response = Response(error: Option<Status>, results: seq<RecognitionResult>)

  /** What one `stream.Recv()` returns. */
  datatype RecvOutcome = EndOfStream | RecvError | Received(response: Response)

  /** The outbound message `{"transcript": ..., "confidence": ...}`. */
  datatype Payload = Payload(transcript: string, confidence: Confidence)

  /** Why the receive loop stopped, or `Receiving` when the outcomes ran out first. */
  datatype Termination =
    | Eof
    | ReceiveFailed
    | RecognitionFailed(status: Status, limitWarning: bool)
    | Receiving

  datatype ReceiveTrace = ReceiveTrace(published: seq<Payload>, end: Termination)

  /** Status codes the loop reads as the 60-second streaming limit: INVALID_ARGUMENT and OUT_OF_RANGE. */
  const InvalidArgument: int := 3
  const OutOfRange: int := 11

  predicate Terminates(o: RecvOutcome) {
    o.EndOfStream? || o.RecvError? || o.response.error.Some?
  }

  function PayloadOf(alt: Alternative): Payload {
    Payload(alt.transcript, alt.confidence)
  }

  /** Total number of alternatives over a list of results. */
  function AltCount(results: seq<RecognitionResult>): nat {
    if |results| == 0 then 0 else AltCount(results[..|results| - 1]) + |results[|results| - 1].alternatives|
  }

  /** The payloads of one result's alternatives, in order. */
  function AltPayloads(alts: seq<Alternative>): seq<Payload> {
    seq(|alts|, j requires 0 <= j < |alts| => PayloadOf(alts[j]))
  }

  /** The payloads of one error-free response: each alternative of each result, results first. */
  function ResponsePayloads(results: seq<RecognitionResult>): (ps: seq<Payload>)
    ensures |ps| == AltCount(results)
  {
    if |results| == 0 then []
    else ResponsePayloads(results[..|results| - 1]) + AltPayloads(results[|results| - 1].alternatives)
  }

  /** The termination a terminating outcome causes. */
  function TerminationOf(o: RecvOutcome): Termination
    requires Terminates(o)
  {
    match o
    case EndOfStream => Eof
    case RecvError => ReceiveFailed
    case Received(resp) =>
      var st := resp.error.value;
      RecognitionFailed(st, st.code == InvalidArgument || st.code == OutOfRange)
  }

  /** The index of the first terminating outcome, or the length when there is none. */
  function FirstTerminator(outcomes: seq<RecvOutcome>): (k: nat)
    ensures k <= |outcomes|
    ensures forall i :: 0 <= i < k ==> !Terminates(outcomes[i])
    ensures k < |outcomes| ==> Terminates(outcomes[k])
    decreases |outcomes|
  {
    if |outcomes| == 0 then 0
    else if Terminates(outcomes[0]) then 0
    else 1 + FirstTerminator(outcomes[1..])
  }

  /** The receive loop (main.go:112-141) over a finite sequence of receive outcomes. */
  function Receive(outcomes: seq<RecvOutcome>): ReceiveTrace
    decreases |outcomes|
  {
    if |outcomes| == 0 then ReceiveTrace([], Receiving)
    else if Terminates(outcomes[0]) then ReceiveTrace([], TerminationOf(outcomes[0]))
    else
      var rest := Receive(outcomes[1..]);
      ReceiveTrace(ResponsePayloads(outcomes[0].response.results) + rest.published, rest.end)
  }

  /**
   Every alternative of every result yields exactly one payload, equal to it, at
   the position given by result-then-alternative order; with the length fact of
   ResponsePayloads there are no other payloads.
   */
  lemma {:induction false} ResponsePayloadAt(results: seq<RecognitionResult>, i: nat, j: nat)
    requires i < |results| && j < |results[i].alternatives|
    ensures AltCount(results[..i]) + j < |ResponsePayloads(results)|
    ensures ResponsePayloads(results)[AltCount(results[..i]) + j] == PayloadOf(results[i].alternatives[j])
    decreases |results|
  {
    var n := |results| - 1;
    var init := results[..n];
    var front := ResponsePayloads(init);
    if i == n {
      assert init == results[..i];
    } else {
      assert init[..i] == results[..i];
      ResponsePayloadAt(init, i, j);
      AltCountPrefix(results, i);
    }
  }

  lemma {:induction false} AltCountPrefix(results: seq<RecognitionResult>, i: nat)
    requires i < |results|
    ensures AltCount(results[..i]) + |results[i].alternatives| <= AltCount(results[..|results| - 1]) + |results[|results| - 1].alternatives|
    decreases |results|
  {
    var n := |results| - 1;
    assert results[..n + 1] == results;
    if i < n {
      AltCountPrefix(results[..n], i);
      assert results[..n][..i] == results[..i];
      assert results[..n][..n - 1] == results[..n - 1];
    }
  }

  /** Without a terminating outcome in the first part, the loop publishes its payloads and carries on. */
  lemma {:induction false} ReceiveAppend(a: seq<RecvOutcome>, b: seq<RecvOutcome>)
    requires forall i :: 0 <= i < |a| ==> !Terminates(a[i])
    ensures Receive(a + b) == ReceiveTrace(Receive(a).published + Receive(b).published, Receive(b).end)
    decreases |a|
  {
    if |a| == 0 {
      Seqs.EmptyConcat(a, b);
    } else {
      Seqs.ConcatHeadTail(a, b);
      var tail := a[1..];
      forall i | 0 <= i < |tail|
        ensures !Terminates(tail[i])
      {
        assert tail[i] == a[i + 1];
      }
      ReceiveAppend(tail, b);
      var head := ResponsePayloads(a[0].response.results);
      assert Receive(a + b) == ReceiveTrace(head + Receive(tail + b).published, Receive(tail + b).end);
      assert Receive(a) == ReceiveTrace(head + Receive(tail).published, Receive(tail).end);
      Seqs.ConcatAssoc(head, Receive(tail).published, Receive(b).published);
    }
  }

  /** After the loop has broken out, no later response publishes anything. */
  lemma {:induction false} NothingPublishedAfterStop(a: seq<RecvOutcome>, b: seq<RecvOutcome>)
    requires exists i :: 0 <= i < |a| && Terminates(a[i])
    ensures Receive(a + b) == Receive(a)
    decreases |a|
  {
    Seqs.ConcatHeadTail(a, b);
    if !Terminates(a[0]) {
      var i :| 0 <= i < |a| && Terminates(a[i]);
      assert Terminates(a[1..][i - 1]);
      NothingPublishedAfterStop(a[1..], b);
    }
  }

  /**
   The loop stops at the first end of stream, receive error or error response,
   and that outcome alone decides why it stopped.
   */
  lemma StopsAtFirstTerminator(outcomes: seq<RecvOutcome>)
    ensures var k := FirstTerminator(outcomes);
      Receive(outcomes).end == (if k < |outcomes| then TerminationOf(outcomes[k]) else Receiving)
  {
    var k := FirstTerminator(outcomes);
    var pre := outcomes[..k];
    if k < |outcomes| {
      BeforeFirstTerminator(outcomes);
      ReceiveAppend(pre, outcomes[k..]);
      ReceiveBreaks(outcomes, k);
    } else {
      assert pre == outcomes;
    }
  }

  /** The loop publishes only what the responses before the first terminating outcome carry. */
  lemma PublishedBeforeTerminator(outcomes: seq<RecvOutcome>)
    ensures var k := FirstTerminator(outcomes);
      Receive(outcomes).published == Receive(outcomes[..k]).published
  {
    var k := FirstTerminator(outcomes);
    var pre := outcomes[..k];
    if k < |outcomes| {
      BeforeFirstTerminator(outcomes);
      ReceiveAppend(pre, outcomes[k..]);
      ReceiveBreaks(outcomes, k);
      assert Receive(pre).published + [] == Receive(pre).published;
    } else {
      assert pre == outcomes;
    }
  }

  /** Splitting at the first terminating outcome leaves only non-terminating outcomes in front. */
  lemma BeforeFirstTerminator(outcomes: seq<RecvOutcome>)
    requires FirstTerminator(outcomes) < |outcomes|
    ensures var k := FirstTerminator(outcomes);
      && outcomes[..k] + outcomes[k..] == outcomes
      && forall i :: 0 <= i < k ==> !Terminates(outcomes[..k][i])
  {
    var k := FirstTerminator(outcomes);
    var pre := outcomes[..k];
    Seqs.ConcatSplit(outcomes, k);
    forall i | 0 <= i < |pre|
      ensures !Terminates(pre[i])
    {
      assert pre[i] == outcomes[i];
    }
  }

  /** The 60-second-limit warning is logged exactly when the loop stops at an error response with code 3 or 11. */
  lemma LimitWarningIffCode(outcomes: seq<RecvOutcome>)
    ensures var k := FirstTerminator(outcomes);
      var end := Receive(outcomes).end;
      (end.RecognitionFailed? && end.limitWarning)
        <==> (k < |outcomes| && outcomes[k].Received? && outcomes[k].response.error.Some?
              && (outcomes[k].response.error.value.code == InvalidArgument || outcomes[k].response.error.value.code == OutOfRange))
  {
    StopsAtFirstTerminator(outcomes);
  }

  /**
   Over the whole loop: the payloads published for the `r`-th outcome, which
   precedes the first terminator, follow those of the earlier outcomes, one per
   alternative in result-then-alternative order.
   */
  lemma PublishedInOrder(outcomes: seq<RecvOutcome>, r: nat, i: nat, j: nat)
    requires r < FirstTerminator(outcomes)
    requires i < |outcomes[r].response.results| && j < |outcomes[r].response.results[i].alternatives|
    ensures var at := |Receive(outcomes[..r]).published| + AltCount(outcomes[r].response.results[..i]) + j;
      at < |Receive(outcomes).published|
      && Receive(outcomes).published[at] == PayloadOf(outcomes[r].response.results[i].alternatives[j])
    ensures |Receive(outcomes).published|
         == |Receive(outcomes[..r]).published| + AltCount(outcomes[r].response.results)
            + |Receive(outcomes[r + 1..]).published|
  {
    var results := outcomes[r].response.results;
    ResponsePayloadAt(results, i, j);
    ReceiveAround(outcomes, r);
    Seqs.IndexIntoMiddle(Receive(outcomes[..r]).published, ResponsePayloads(results), Receive(outcomes[r + 1..]).published,
                    AltCount(results[..i]) + j);
  }

  /** Before the first terminator, the whole loop's output splits around the `r`-th response. */
  lemma ReceiveAround(outcomes: seq<RecvOutcome>, r: nat)
    requires r < FirstTerminator(outcomes)
    ensures Receive(outcomes).published
         == (Receive(outcomes[..r]).published + ResponsePayloads(outcomes[r].response.results))
            + Receive(outcomes[r + 1..]).published
  {
    var pre := outcomes[..r];
    Seqs.ConcatSplit(outcomes, r);
    forall k | 0 <= k < |pre|
      ensures !Terminates(pre[k])
    {
      assert pre[k] == outcomes[k];
    }
    ReceiveAppend(pre, outcomes[r..]);
    ReceiveContinues(Receive(pre).published, outcomes, r);
  }

  lemma ResponsePayloadsExtend(results: seq<RecognitionResult>, r: nat)
    requires r < |results|
    ensures ResponsePayloads(results[..r + 1]) == ResponsePayloads(results[..r]) + AltPayloads(results[r].alternatives)
  {
    assert results[..r + 1][..r] == results[..r];
  }

  lemma AltPayloadsExtend(alts: seq<Alternative>, a: nat)
    requires a < |alts|
    ensures AltPayloads(alts[..a + 1]) == AltPayloads(alts[..a]) + [PayloadOf(alts[a])]
  {
  }

  lemma ReceiveContinues(before: seq<Payload>, outcomes: seq<RecvOutcome>, i: nat)
    requires i < |outcomes| && !Terminates(outcomes[i])
    ensures Receive(outcomes[i..]).end == Receive(outcomes[i + 1..]).end
    ensures before + Receive(outcomes[i..]).published
         == (before + ResponsePayloads(outcomes[i].response.results)) + Receive(outcomes[i + 1..]).published
  {
    assert outcomes[i..][0] == outcomes[i];
    assert outcomes[i..][1..] == outcomes[i + 1..];
  }

  lemma ReceiveBreaks(outcomes: seq<RecvOutcome>, i: nat)
    requires i < |outcomes| && Terminates(outcomes[i])
    ensures Receive(outcomes[i..]) == ReceiveTrace([], TerminationOf(outcomes[i]))
  {
    assert outcomes[i..][0] == outcomes[i];
  }

  /** The two nested range loops over results and their alternatives, publishing one payload each. */
  method PublishResponse(results: seq<RecognitionResult>) returns (payloads: seq<Payload>)
    ensures payloads == ResponsePayloads(results)
  {
    payloads := [];
    var r := 0;
    while r < |results|
      invariant 0 <= r <= |results|
      invariant payloads == ResponsePayloads(results[..r])
      decreases |results| - r
    {
      var alts := results[r].alternatives;
      ghost var before := payloads;
      var a := 0;
      while a < |alts|
        invariant 0 <= a <= |alts|
        invariant payloads == before + AltPayloads(alts[..a])
        decreases |alts| - a
      {
        AltPayloadsExtend(alts, a);
        payloads := payloads + [Payload(alts[a].transcript, alts[a].confidence)];
        a := a + 1;
      }
      assert alts[..a] == alts;
      ResponsePayloadsExtend(results, r);
      r := r + 1;
    }
    assert results[..r] == results;
  }

  /** The imperative receive loop with its nested range loops, statement for statement. */
  method ReceiveLoop(outcomes: seq<RecvOutcome>) returns (published: seq<Payload>, end: Termination)
    ensures ReceiveTrace(published, end) == Receive(outcomes)
  {
    published := [];
    var i := 0;
    while i < |outcomes|
      invariant 0 <= i <= |outcomes|
      invariant Receive(outcomes) == ReceiveTrace(published + Receive(outcomes[i..]).published, Receive(outcomes[i..]).end)
      decreases |outcomes| - i
    {
      var outcome := outcomes[i];
      if outcome.EndOfStream? {
        ReceiveBreaks(outcomes, i);
        return published, Eof;
      }
      if outcome.RecvError? {
        ReceiveBreaks(outcomes, i);
        return published, ReceiveFailed;
      }
      var resp := outcome.response;
      if resp.error.Some? {
        ReceiveBreaks(outcomes, i);
        var st := resp.error.value;
        return published, RecognitionFailed(st, st.code == InvalidArgument || st.code == OutOfRange);
      }
      ReceiveContinues(published, outcomes, i);
      var payloads := PublishResponse(resp.results);
      published := published + payloads;
      i := i + 1;
    }
    assert outcomes[i..] == [];
    end := Receiving;
  }
}

=== FILE: seqs.dfy ===
/** Facts about sequence concatenation, proved once for every element type. */
module Seqs {

  lemma EmptyConcat<T>(a: seq<T>, b: seq<T>)
    requires |a| == 0
    ensures a + b == b
  {
  }

  lemma ConcatHeadTail<T>(a: seq<T>, b: seq<T>)
    requires |a| > 0
    ensures (a + b)[0] == a[0]
    ensures (a + b)[1..] == a[1..] + b
  {
  }

  lemma ConcatSplit<T>(s: seq<T>, k: nat)
    requires k <= |s|
    ensures s[..k] + s[k..] == s
  {
  }

  lemma ConcatAssoc<T>(a: seq<T>, b: seq<T>, c: seq<T>)
    ensures a + (b + c) == (a + b) + c
  {
  }

  lemma IndexIntoMiddle<T>(a: seq<T>, b: seq<T>, c: seq<T>, x: nat)
    requires x < |b|
    ensures |a| + x < |(a + b) + c| && ((a + b) + c)[|a| + x] == b[x]
  {
  }
}

=== FILE: session.dfy ===
/**
 One transcription session, the function `livecaption`: create the speech client,
 open the streaming call, send the configuration frame, launch the capture
 pipeline, then run the send loop and the receive loop on that one stream.

 The two loops run concurrently in the program; here each is a trace over its own
 input, and the session pairs the request-side frames with the published payloads.
 */
module Session {

  import opened Streaming
  import opened Recognition

  /** What the external services do during one session. */
  datatype SessionInput = SessionInput(
    clientCreated: bool,     // `speech.NewClient` returned no error
    streamOpened: bool,      // `client.StreamingRecognize` returned no error
    configAccepted: bool,    // sending the configuration frame returned no error
    audio: seq<SendEvent>,   // what the send loop observes
    responses: seq<RecvOutcome>)  // what the receive loop receives

  datatype SessionEnd = SetupFailed | ConfigFailed | Finished(receive: Termination)

  datatype SessionTrace = SessionTrace(
    frames: seq<Frame>,        // the request side of the stream, in order
    published: seq<Payload>,   // the payloads sent to the outbound queue, in order
    captureLaunched: bool,     // `cmd.Start` was called for the capture subprocess
    end: SessionEnd)

  /** `livecaption` (main.go:39-142). */
  function Livecaption(input: SessionInput): (t: SessionTrace)
    ensures t.end == SetupFailed <==> !input.clientCreated || !input.streamOpened
    ensures t.end == SetupFailed ==> t.frames == []
    ensures t.end == ConfigFailed <==> input.clientCreated && input.streamOpened && !input.configAccepted
    ensures t.end == ConfigFailed ==> t.frames == [ConfigFrame(SessionConfig)]
    ensures t.end != SetupFailed ==> |t.frames| > 0 && t.frames[0] == ConfigFrame(SessionConfig)
    ensures forall i :: 0 < i < |t.frames| ==> !t.frames[i].ConfigFrame?
    ensures forall i :: 0 <= i < |t.frames| && t.frames[i].AudioFrame? ==> t.end.Finished?
    ensures t.captureLaunched <==> t.end.Finished?
    ensures !t.end.Finished? ==> t.published == []
    ensures t.end.Finished? ==>
      t.published == Receive(input.responses).published && t.end.receive == Receive(input.responses).end
    ensures t.end.Finished? ==> t.frames == [ConfigFrame(SessionConfig)] + SendLoop(input.audio).frames
    ensures t.end.Finished? ==> LoopFrames(t.frames[1..])
    ensures t.end.Finished? ==> AudioOf(t.frames) == ChunksRead(input.audio[..Consumed(input.audio)])
  {
    if !input.clientCreated || !input.streamOpened then
      SessionTrace([], [], false, SetupFailed)
    else if !input.configAccepted then
      SessionTrace([ConfigFrame(SessionConfig)], [], false, ConfigFailed)
    else
      var sent := SendLoop(input.audio);
      var received := Receive(input.responses);
      SendLoopFrames(input.audio);
      SendLoopAudio(input.audio);
      AudioOfAppend([ConfigFrame(SessionConfig)], sent.frames);
      assert AudioOf([ConfigFrame(SessionConfig)]) == AudioOf([]);
      SessionTrace([ConfigFrame(SessionConfig)] + sent.frames, received.published, true, Finished(received.end))
  }
}

=== FILE: streaming.dfy ===
/**
 The request side of the streaming recognition call made by `livecaption`: the
 one configuration frame, and the goroutine that pipes captured audio to the
 stream in chunks of at most 1024 bytes until end of data or cancellation.

 The audio pipe is abstracted as the sequence of events the loop observes: either
 the session's context is found cancelled at the top of an iteration, or a read
 returns a chunk (the `buf[:n]` it filled) together with an error value.
 */
module Streaming {

  import Seqs

  type byte = bv8

  /** Size of the buffer the send loop reads into. */
  const BufferSize: nat := 1024

  /** What one `Read(buf)` may deliver: by the reader contract, never more than `len(buf)` bytes. */
  type Chunk = s: seq<byte> | |s| <= BufferSize

  datatype AudioEncoding = Linear16

  datatype RecognitionConfig = RecognitionConfig(encoding: AudioEncoding, sampleRateHertz: nat, languageCode: string)

  /** The configuration every session declares: 16-bit linear PCM at 16 kHz, American English. */
  const SessionConfig: RecognitionConfig := RecognitionConfig(Linear16, 16000, "en-US")

  /** What is sent on the request side of the stream. */
  datatype Frame =
    | ConfigFrame(config: RecognitionConfig)
    | AudioFrame(content: seq<byte>)
    | CloseSend

  datatype ReadError = NoError | Eof | Failed

  datatype SendEvent =
    | Cancelled                             // `<-ctx.Done()` is ready
    | Read(chunk: Chunk, err: ReadError)    // `n, err := stdout.Read(buf)` with `chunk == buf[:n]`

  /** Why the send loop returned, or `Sending` when the events ran out first. */
  datatype SendEnd = Closed | CancelledExit | Sending

  datatype SendTrace = SendTrace(frames: seq<Frame>, end: SendEnd)

  /** An event after which the send loop returns. */
  predicate Stops(e: SendEvent) {
    e.Cancelled? || e.err == Eof
  }

  /** The frames one read sends before any end-of-stream handling: the chunk, when non-empty. */
  function ChunkFrames(chunk: Chunk): seq<Frame> {
    if |chunk| > 0 then [AudioFrame(chunk)] else []
  }

  /**
   What the send loop may put on the stream: no configuration frame, only
   non-empty audio frames that fit the buffer, and CloseSend at most once and
   only as the last frame.
   */
  predicate LoopFrames(frames: seq<Frame>) {
    forall i :: 0 <= i < |frames| ==>
      match frames[i]
      case ConfigFrame(_) => false
      case AudioFrame(content) => 0 < |content| <= BufferSize
      case CloseSend => i == |frames| - 1
  }

  /** The loop body of the send goroutine (main.go:76-109), over a finite event sequence. */
  function SendLoop(events: seq<SendEvent>): SendTrace
    decreases |events|
  {
    if |events| == 0 then SendTrace([], Sending)
    else match events[0]
      case Cancelled => SendTrace([], CancelledExit)
      case Read(chunk, err) =>
        if err == Eof then
          SendTrace(ChunkFrames(chunk) + [CloseSend], Closed)
        else
          var rest := SendLoop(events[1..]);
          SendTrace(ChunkFrames(chunk) + rest.frames, rest.end)
  }

  /**
   The send loop never sends a configuration frame or an empty or oversized audio
   frame, and nothing after CloseSend, which it sends exactly when it ends closed.
   */
  lemma {:induction false} SendLoopFrames(events: seq<SendEvent>)
    ensures LoopFrames(SendLoop(events).frames)
    ensures var fs := SendLoop(events).frames;
      SendLoop(events).end.Closed? <==> |fs| > 0 && fs[|fs| - 1] == CloseSend
    decreases |events|
  {
    if |events| > 0 && events[0].Read? && events[0].err != Eof {
      var head := ChunkFrames(events[0].chunk);
      var rest := SendLoop(events[1..]).frames;
      SendLoopFrames(events[1..]);
      assert SendLoop(events).frames == head + rest;
      forall i | 0 <= i < |head + rest|
        ensures match (head + rest)[i]
          case ConfigFrame(_) => false
          case AudioFrame(content) => 0 < |content| <= BufferSize
          case CloseSend => i == |head + rest| - 1
      {
        if i >= |head| {
          assert (head + rest)[i] == rest[i - |head|];
        }
      }
    }
  }

  /** The contents of the audio frames of a trace, in order. */
  function AudioOf(frames: seq<Frame>): seq<seq<byte>> {
    if |frames| == 0 then []
    else (if frames[0].AudioFrame? then [frames[0].content] else []) + AudioOf(frames[1..])
  }

  /** The non-empty chunks delivered by the reads of an event sequence, in order. */
  function ChunksRead(events: seq<SendEvent>): seq<seq<byte>> {
    if |events| == 0 then [] else ChunkOf(events[0]) + ChunksRead(events[1..])
  }

  function ChunkOf(e: SendEvent): seq<seq<byte>> {
    if e.Read? && |e.chunk| > 0 then [e.chunk] else []
  }

  /** The index of the first event after which the loop returns, or the length when there is none. */
  function FirstStop(events: seq<SendEvent>): (k: nat)
    ensures k <= |events|
    ensures forall i :: 0 <= i < k ==> !Stops(events[i])
    ensures k < |events| ==> Stops(events[k])
    decreases |events|
  {
    if |events| == 0 then 0
    else if Stops(events[0]) then 0
    else 1 + FirstStop(events[1..])
  }

  /** The events the loop acts on: up to and including an end-of-data read, up to and excluding an observed cancellation. */
  function Consumed(events: seq<SendEvent>): (c: nat)
    ensures c <= |events|
  {
    var k := FirstStop(events);
    if k < |events| && events[k].Read? then k + 1 else k
  }

  lemma {:induction false} AudioOfAppend(a: seq<Frame>, b: seq<Frame>)
    ensures AudioOf(a + b) == AudioOf(a) + AudioOf(b)
    decreases |a|
  {
    if |a| == 0 {
      Seqs.EmptyConcat(a, b);
    } else {
      Seqs.ConcatHeadTail(a, b);
      AudioOfAppend(a[1..], b);
    }
  }

  lemma AudioOfChunk(e: SendEvent)
    requires e.Read?
    ensures AudioOf(ChunkFrames(e.chunk)) == ChunkOf(e)
    ensures AudioOf(ChunkFrames(e.chunk) + [CloseSend]) == ChunkOf(e)
  {
    AudioOfAppend(ChunkFrames(e.chunk), [CloseSend]);
    assert AudioOf([CloseSend]) == AudioOf([CloseSend][1..]);
    if |e.chunk| > 0 {
      assert AudioOf([AudioFrame(e.chunk)]) == [e.chunk] + AudioOf([AudioFrame(e.chunk)][1..]);
    }
  }

  /**
   The audio frames sent are exactly the non-empty chunks of the reads the loop
   consumed, in order, an end-of-data read's own bytes included.
   */
  lemma {:induction false} SendLoopAudio(events: seq<SendEvent>)
    ensures AudioOf(SendLoop(events).frames) == ChunksRead(events[..Consumed(events)])
    decreases |events|
  {
    if |events| == 0 || events[0].Cancelled? {
      assert events[..Consumed(events)] == [];
    } else if events[0].err == Eof {
      var e := events[0];
      assert events[..Consumed(events)] == [e];
      assert ChunksRead([e]) == ChunkOf(e) + ChunksRead([]);
      AudioOfChunk(e);
    } else {
      var e := events[0];
      SendLoopAudio(events[1..]);
      var c := Consumed(events[1..]);
      assert Consumed(events) == c + 1;
      assert events[..c + 1][1..] == events[1..][..c];
      AudioOfAppend(ChunkFrames(e.chunk), SendLoop(events[1..]).frames);
      AudioOfChunk(e);
    }
  }

  /** The loop closes the stream exactly when it stops at an end-of-data read; a cancellation ends it without closing. */
  lemma {:induction false} SendLoopEnd(events: seq<SendEvent>)
    ensures var k := FirstStop(events);
      && (SendLoop(events).end.Closed? <==> k < |events| && events[k].Read?)
      && (SendLoop(events).end.CancelledExit? <==> k < |events| && events[k].Cancelled?)
      && (SendLoop(events).end.Sending? <==> k == |events|)
    decreases |events|
  {
    if |events| > 0 && !Stops(events[0]) {
      SendLoopEnd(events[1..]);
    }
  }

  /** Without an end-of-data read or a cancellation in the first events, the loop sends their frames and carries on. */
  lemma {:induction false} SendLoopAppend(a: seq<SendEvent>, b: seq<SendEvent>)
    requires forall i :: 0 <= i < |a| ==> !Stops(a[i])
    ensures SendLoop(a + b) == SendTrace(SendLoop(a).frames + SendLoop(b).frames, SendLoop(b).end)
    decreases |a|
  {
    if |a| == 0 {
      Seqs.EmptyConcat(a, b);
    } else {
      Seqs.ConcatHeadTail(a, b);
      var tail := a[1..];
      forall i | 0 <= i < |tail|
        ensures !Stops(tail[i])
      {
        assert tail[i] == a[i + 1];
      }
      SendLoopAppend(tail, b);
      SendLoopUnfold(a + b);
      SendLoopUnfold(a);
      Seqs.ConcatAssoc(ChunkFrames(a[0].chunk), SendLoop(tail).frames, SendLoop(b).frames);
    }
  }

  /** One read that neither hits end of data nor follows a cancellation: its chunk, then the rest of the loop. */
  lemma SendLoopUnfold(events: seq<SendEvent>)
    requires |events| > 0 && !Stops(events[0])
    ensures SendLoop(events)
         == SendTrace(ChunkFrames(events[0].chunk) + SendLoop(events[1..]).frames, SendLoop(events[1..]).end)
  {
  }

  /** Once the loop has returned (closed or cancelled), nothing that follows is sent. */
  lemma {:induction false} NothingSentAfterReturn(a: seq<SendEvent>, b: seq<SendEvent>)
    requires exists i :: 0 <= i < |a| && Stops(a[i])
    ensures SendLoop(a + b) == SendLoop(a)
    decreases |a|
  {
    Seqs.ConcatHeadTail(a, b);
    if !Stops(a[0]) {
      var i :| 0 <= i < |a| && Stops(a[i]);
      assert Stops(a[1..][i - 1]);
      NothingSentAfterReturn(a[1..], b);
    }
  }

  /** One read that does not end the loop: its chunk goes out, then whatever the remaining events send. */
  lemma SendLoopContinues(before: seq<Frame>, events: seq<SendEvent>, i: nat)
    requires i < |events| && events[i].Read? && events[i].err != Eof
    ensures SendLoop(events[i..]).end == SendLoop(events[i + 1..]).end
    ensures before + SendLoop(events[i..]).frames
         == (before + ChunkFrames(events[i].chunk)) + SendLoop(events[i + 1..]).frames
  {
    assert events[i..][0] == events[i];
    assert events[i..][1..] == events[i + 1..];
  }

  lemma SendLoopExhausted(events: seq<SendEvent>, i: nat)
    requires i == |events|
    ensures SendLoop(events[i..]) == SendTrace([], Sending)
  {
    assert events[i..] == [];
  }

  /** One read or cancellation that ends the loop. */
  lemma SendLoopReturns(before: seq<Frame>, events: seq<SendEvent>, i: nat)
    requires i < |events| && Stops(events[i])
    ensures events[i].Cancelled? ==> SendLoop(events[i..]) == SendTrace([], CancelledExit)
    ensures events[i].Cancelled? ==> before + SendLoop(events[i..]).frames == before
    ensures events[i].Read? ==> SendLoop(events[i..]).end == Closed
    ensures events[i].Read? ==>
      before + SendLoop(events[i..]).frames == (before + ChunkFrames(events[i].chunk)) + [CloseSend]
  {
    assert events[i..][0] == events[i];
    if events[i].Read? {
      Seqs.ConcatAssoc(before, ChunkFrames(events[i].chunk), [CloseSend]);
    } else {
      assert before + [] == before;
    }
  }

  /** The imperative send loop, statement for statement. */
  method SendAudio(events: seq<SendEvent>) returns (frames: seq<Frame>, end: SendEnd)
    ensures SendTrace(frames, end) == SendLoop(events)
  {
    ghost var target := SendLoop(events);
    frames := [];
    var i := 0;
    while i < |events|
      invariant 0 <= i <= |events|
      invariant target == SendTrace(frames + SendLoop(events[i..]).frames, SendLoop(events[i..]).end)
      decreases |events| - i
    {
      var event := events[i];
      if event.Cancelled? {
        SendLoopReturns(frames, events, i);
        return frames, CancelledExit;
      }
      ghost var before := frames;
      if |event.chunk| > 0 {
        frames := frames + [AudioFrame(event.chunk)];
      }
      assert frames == before + ChunkFrames(event.chunk);
      if event.err == Eof {
        SendLoopReturns(before, events, i);
        return frames + [CloseSend], Closed;
      }
      // any other read error is only logged, and the loop goes on
      SendLoopContinues(before, events, i);
      i := i + 1;
    }
    SendLoopExhausted(events, i);
    end := Sending;
  }
}

=== FILE: wrappers.dfy ===
/** An optional value: a nilable pointer in the modelled program, or the result of a comma-ok map lookup. */
module Wrappers {

  datatype Option<+T> = None | Some(value: T)

}
